=== FILE: README.md ===
# teenypng in Dafny

teenypng is a batch PNG optimiser run from a host application's scripting
console. For each PNG file it finds, it runs up to three external steps:

- an optional resize, done with the Pillow image library;
- an optional lossy quantisation with `pngquant`;
- a lossless re-compression with `zopflipng`, which always runs and always runs last.

Each step writes its output to a *side path*, derived from the file's path by
replacing every lower-case `.png` with a suffix of the step's own. The step then
moves that output over the original.

This project models the deterministic part of `teenypng.py` as pure
functions over immutable values. It covers:

- **discovery** (`get_png_files`): single-file, flat-directory and recursive modes;
- **side-path naming**: Python's `str.replace(".png", suffix)`, which rewrites
  every occurrence and matches case-sensitively;
- **the resize arithmetic**: `int(w * pct / 100)`;
- **replace-on-success**: the rule the two compressors follow, over a
  filesystem modelled as `map<string, Content>`;
- **the pipeline order** of `process_image`;
- **the worker count** `NUM_THREADS`;
- **the argv split**: the script's arguments are whatever follows the first `--`.

The external programs are oracles, passed in as total functions (`Pipeline.Tools`):

- `resample` gives the pixels of the scaled image;
- `pngquant` and `zopflipng` give what they write at the side path, or `None`;
- `pngquantStarts` and `zopflipngStarts` tell whether each executable can be started;
- `canCreate` tells whether a new file can be written at a path. Directories
  are not part of the filesystem model.

The filesystem's answers to discovery are passed in as values:

- `isfile` / `isdir` become a `PathKind`;
- the `os.listdir` listing becomes a name sequence;
- the `os.walk` steps become a sequence of `WalkEntry(root, files)`.

Modules:

- `Wrappers`: `Option` and `Result`.
- `Text`: ASCII `lower`, `endswith`, substring search, and `str.replace`.
- `Discovery`: the `.png` filter, `os.path.join`, and the three discovery modes.
- `Stages`: file contents, side paths, `os.replace`, the compressor stage,
  and the resize stage with its dimension arithmetic.
- `Pipeline`: each stage's effect, the stage-by-stage runner, `process_image`, and lemmas about a whole job.
- `Config`: `NUM_THREADS` and the `--` split.
- `Scenarios`: small concrete inputs worked through end to end.

Behaviour the model makes explicit:

- **`IMG.PNG`.** Discovery accepts `IMG.PNG`, because the filter lower-cases
  the name. `replace(".png", …)` does not match it, so its side path is the
  file itself (`Stages.UpperCaseExtKeepsPath`). `os.replace` of a path onto
  itself does nothing. So a compressor that wrote nothing is still reported
  as a success (`Stages.FailedToolOnOwnSidePathReadsAsSuccess`).
- **`.png` inside a directory name.** It is rewritten too:
  `shots.png/a.png` gets side paths under `shots_pngquant.png/`, which is
  another directory (`Stages.DirectoryExtIsRewritten`). When the rewritten
  directories do not exist, both compressors report failure and leave the
  file unchanged (`Pipeline.RenamedDirectoryKeepsFile`).
- **Leftover side files.** A file left at a side path by an earlier run
  counts as the tool's output (`Stages.StaleSideFileIsPromoted`).
- **Exceptions end the job.** `process_image` catches nothing. When a
  stage raises, the later stages do not run; for a resize error,
  `zopflipng` is never invoked for that file (`Pipeline.ProcessImage`).
  The resize raises for four reasons:
  - a missing file;
  - an undecodable file;
  - a scaled width or height below 1, which Pillow rejects;
  - a side path that cannot be created. A `.png` in a directory name sends
    the side path to a directory that may not exist
    (`Pipeline.RenamedDirectoryEndsJob`).

  A compressor that starts but writes nothing only reports a failure, and
  the job goes on. A compressor whose executable cannot be started raises,
  and the job ends there. The source only warns about a missing executable
  at start-up. The model follows the code as written.
- **Truthiness.** `--size 0` and `--quality 0` are falsy in Python, so they
  skip their stages just as an omitted flag does (`Pipeline.Truthy`).
- **Worker count.** The source comment says one core is left free. The code
  subtracts four (`Config.WorkerCount`).

## Model

| member | source | states |
|---|---|---|
| `Discovery.IsPngName` | teenypng.py:114 | the filter `name.lower().endswith(".png")`; `Discovery.PngNameByLastFour` describes it without lowering |
| `Discovery.PngNameByLastFour` | teenypng.py:121-123 | a name passes the filter iff its last four characters are `.`, then p, n, g in either case |
| `Discovery.PngNameExamples` | teenypng.py:114 | `IMG.PNG`, `icon.Png`, `a.png` pass; `photo.jpg`, `png`, `x.png.bak` do not |
| `Discovery.Join` | teenypng.py:121 | `os.path.join`: an absolute name wins; otherwise the result starts with the directory and ends with the name, with one separator between them exactly when the directory is non-empty and does not already end with one |
| `Discovery.FilterPng` | teenypng.py:123 | the filtered names are at most as many as the listing; every one passes the filter and comes from the listing; every listing name that passes is kept |
| `Discovery.FilterPngAppend` | teenypng.py:123 | filtering a concatenation is the concatenation of the filtered parts, so listing order is kept |
| `Discovery.StepPngsMembers` | teenypng.py:121 | one walk step contributes exactly the joins of its root with its PNG file names |
| `Discovery.WalkPngs` | teenypng.py:119-121 | a path is in the recursive result iff some walk step's root joined with one of that step's PNG names gives it |
| `Discovery.FlatPngs` | teenypng.py:123 | flat mode gives at most one path per listing entry; `Discovery.FlatPngsMembers` gives its exact members and `Discovery.FlatModeInListingOrder` its order |
| `Discovery.FlatPngsMembers` | teenypng.py:122-123 | flat mode gives at most one path per listing entry; each is the directory joined with an entry that passes the filter, and every such join is present |
| `Discovery.GetPngFiles` | teenypng.py:112-129 | an existing file gives `[input]` iff its name passes the filter, otherwise `[]`; a path that is neither file nor directory gives `[]`; a directory gives the flat result, or the walk result when `recursive` is set |
| `Discovery.FlatModeInListingOrder` | teenypng.py:123 | the flat result of a concatenated listing is the concatenation of the flat results, so it keeps `os.listdir` order |
| `Discovery.FlatIsPrefixOfRecursive` | teenypng.py:119-123 | when the top directory holds only files and the walk starts there, the flat result is a prefix of the recursive one, so flat mode never reaches into subdirectories |
| `Scenarios.FilterThreeOfFour` | teenypng.py:123 | of `a.png`, `B.PNG`, `c.Png`, `d.jpg`, the first three pass in order |
| `Scenarios.FilterThreeAndOne` | teenypng.py:123 | three names that pass and one that does not: the three are kept, in order |
| `Scenarios.ThreePngsOneOther` | teenypng.py:117-125 | a directory listing three PNG names and one other name yields exactly the three joined paths, in listing order |
| `Text.ReplaceAll` | teenypng.py:75 | `str.replace`: a replacement as long as the pattern keeps the length, and a longer one never shortens; `Text.ReplaceAbsent` and `Stages.SidePathSplitsAtFirstExt` pin down the result |
| `Text.ReplaceAbsent` | teenypng.py:75 | `str.replace` returns its input unchanged when the pattern does not occur |
| `Text.ReplaceGrows` | teenypng.py:88 | with a replacement longer than the pattern, `str.replace` never shortens its input and lengthens it whenever the pattern occurs |
| `Text.ReplaceChangesIff` | teenypng.py:102 | with a replacement longer than the pattern, `str.replace` changes its input iff the pattern occurs in it |
| `Stages.SidePath` | teenypng.py:102 | `input.replace(".png", suffix)` for the three stage suffixes, which is never shorter than the input; `Stages.SidePathSplitsAtFirstExt` gives the result on every input |
| `Stages.SidePathDiffersIff` | teenypng.py:75 | a stage's side path differs from its input iff the input contains the lower-case `.png` |
| `Stages.SidePathSplitsAtFirstExt` | teenypng.py:88 | everything before the first `.png` is kept, that `.png` becomes the suffix, and the replacement continues on the rest |
| `Stages.PlainNameSidePath` | teenypng.py:102 | a name whose only `.png` is its extension gets the suffix in place of the extension |
| `Stages.DirectoryExtIsRewritten` | teenypng.py:75 | `dir.png/stem.png` gets the side path `dir<suffix>/stem<suffix>`, which lies in another directory |
| `Stages.UpperCaseExtKeepsPath` | teenypng.py:75 | a `.PNG` name with no lower-case `.png` in it has itself as side path |
| `Stages.Replace` | teenypng.py:80 | `os.replace`: the destination takes the source's content, the source disappears unless it is the destination, and no other path changes |
| `Stages.WriteSide` | teenypng.py:76-78 | a tool run puts its output at the side path or leaves the filesystem as it was, and touches no other path |
| `Stages.CompressStage` | teenypng.py:79-83 | the stage reports success iff a file is at the side path after the tool. On success the input holds that file and the side path is gone; on failure nothing changes; only the input and side path can change |
| `Stages.FailedToolOnOwnSidePathReadsAsSuccess` | teenypng.py:79-81 | when the side path is the input itself, a tool that wrote nothing is reported as a success and nothing changes |
| `Stages.StaleSideFileIsPromoted` | teenypng.py:92-94 | a file already at the side path replaces the input even when the tool wrote nothing |
| `Stages.NewDim` | teenypng.py:67 | the new dimension is `d * pct / 100` truncated toward zero: for `pct >= 0`, the largest `r` with `100 r <= d pct`; for negative `pct`, the mirror image |
| `Stages.NewDimAtMostOriginal` | teenypng.py:67 | for `0 <= pct <= 100` the new dimension lies between 0 and the original |
| `Stages.NewDimFullAndHalf` | teenypng.py:67 | 100 percent is the identity, 50 percent gives the floored half |
| `Stages.NewDimMonotone` | teenypng.py:67 | a larger non-negative percentage never gives a smaller dimension |
| `Stages.ResizeStage` | teenypng.py:63-69 | the resize raises for a missing file, for an undecodable file, exactly when a scaled dimension is below 1, and, for a decodable file of positive scaled size, exactly when no file can be created at the side path. On success the file is a PNG of the scaled dimensions, the side path is gone, and no path other than the file and the side path changes |
| `Pipeline.Quantize` | teenypng.py:73-83 | once pngquant has started, the file is replaced iff pngquant could create its output at the side path and wrote it, or a file already sits there. The file then holds that output, or the file found there, and a side path other than the file is gone. Otherwise nothing changes. Only the file and the side path can change |
| `Pipeline.Optimize` | teenypng.py:86-96 | the same for zopflipng and its `_optimized.png` side path |
| `Pipeline.StepFs` | teenypng.py:73-104 | one stage, either the resize with its `os.replace` or one of the two compressor functions, raises iff it is a resize that raises or a tool that cannot be started; a stage that raises changes nothing and names itself as the failed stage; only the file and its side paths can change |
| `Pipeline.RunTrace` | teenypng.py:99-109 | running stages in sequence invokes an initial segment of them: all of them when nothing raises, and otherwise up to and including the stage that raised; only the file and its side paths change |
| `Pipeline.Plan` | teenypng.py:99-109 | the planned stages hold a resize iff `size` is truthy and pngquant iff `quality` is truthy, are in resize, pngquant, zopflipng order, and end with zopflipng, which occurs exactly once |
| `Pipeline.CompressionsOutcome` | teenypng.py:106-109 | on any filesystem, pngquant is invoked iff `quality` is truthy, zopflipng iff pngquant did not fail to start, and the compressors complete iff the tools they need start |
| `Pipeline.ProcessImage` | teenypng.py:99-109 | the job is its planned stages run by `Pipeline.RunTrace`. Resize is invoked iff `size` is truthy; pngquant iff `quality` is truthy and the resize did not raise; zopflipng iff neither the resize nor a needed pngquant failed. The job completes iff no resize error occurs and every tool it needs starts, and then zopflipng ran exactly once and last. Otherwise the stage that raised is the last one invoked, and a resize error leaves everything unchanged. Stages run in resize, pngquant, zopflipng order. Only the file and its three side paths can change |
| `Pipeline.FailingQuantizerStillOptimizes` | teenypng.py:106-109 | with no leftover file at pngquant's side path, on any filesystem including the one a resize left, a pngquant that starts but writes nothing leaves the filesystem unchanged (an `IMG.PNG` included), reports failure when the side path is not the file itself, and zopflipng then runs on that unchanged file |
| `Pipeline.QuantizedFileIsOptimized` | teenypng.py:106-109 | without `--size`, when both side paths can be created, pngquant turns the file into `a` and zopflipng turns `a` into `b`, the job completes and the file holds `b`: zopflipng reads pngquant's output |
| `Pipeline.CompressKeepsDims` | teenypng.py:92-96 | a compressor that keeps dimensions keeps the file's dimensions and leaves no stale file at any side path |
| `Pipeline.CompressorStepKeepsDims` | teenypng.py:79-80 | one compressor stage keeps the file's dimensions and leaves no stale file at either compressor's side path |
| `Pipeline.CompressionsKeepDims` | teenypng.py:106-109 | the compressor stages keep the dimensions of the file they start on, whether or not the tools start |
| `Pipeline.DimensionsKeptWithoutResize` | teenypng.py:101-109 | without a truthy `--size`, the file's pixel dimensions after the job equal those before, and the job completes iff the tools it needs start |
| `Pipeline.ResizeLeavesSidesFresh` | teenypng.py:102-104 | a successful resize leaves no file at a side path that had none |
| `Pipeline.HalfSizeScenario` | teenypng.py:101-109 | `--size 50` on an image at least 2x2 whose resize output can be saved gives floored half width and half height; when the needed tools start, zopflipng runs exactly once |
| `Pipeline.RenamedDirectoryEndsJob` | teenypng.py:69 | for `dir.png/stem.png`, when no file can be created in the rewritten directory `dir_resized.png/`, the save raises, the job ends after the resize alone, and nothing changes |
| `Pipeline.RenamedDirectoryKeepsFile` | teenypng.py:75-96 | without `--size`, for `dir.png/stem.png` whose rewritten compressor directories cannot be written and hold no leftover files, the job completes and the filesystem is unchanged |
| `Config.WorkerCount` | teenypng.py:60 | the worker count is at least 1 and at least `cpus - 4`, and is one of the two; an unknown CPU count raises |
| `Config.IndexOf` | teenypng.py:136 | `list.index` gives the first position holding the element, and raises iff the element is absent |
| `Config.ScriptArgs` | teenypng.py:134-140 | the script exits iff there is no `--`; otherwise its arguments are exactly what follows the first `--` |
| `Config.ScriptArgsAfterFirstSeparator` | teenypng.py:136-137 | for host arguments without `--`, splitting `host + ["--"] + script` gives back exactly `script`, even if `script` contains `--` |

## Left out

- Pillow bootstrap and `pip` installation (teenypng.py:7-43). This is environment set-up run at import time.
- The executable paths read from environment variables, and the warnings about missing executables (teenypng.py:50-57). Whether each executable can be started is a flag in `Pipeline.Tools`. `projectsfolder` is not defined anywhere in the file.
- The subprocess calls to pngquant and zopflipng, and their argument lists (teenypng.py:76-78, 89-91). Each tool is an oracle that either writes a file at the side path or writes nothing, after a flag has said whether it starts at all. `subprocess.run` can also raise for reasons other than a missing executable; those are not modelled. The captured error text is only printed, so it is not modelled.
- Decoding, Lanczos resampling and encoding (teenypng.py:65-69). Resampling is an oracle.
- `Stages.NewDim`: uses exact integer division. The source computes `w * pct / 100` in floating point and truncates the result. The two agree unless the product is too large for a double to hold its fractional part.
- `Discovery.IsPngName`: lower-cases ASCII letters only. Python lower-cases all of Unicode, but no other character lower-cases to `.`, `p`, `n` or `g`, so the filter's answer is the same.
- `Discovery.Join`: follows posixpath. The Windows `ntpath` join handles drive letters and backslashes, and that is not modelled.
- `Discovery.GetPngFiles`: takes the `os.listdir` listing as given. A subdirectory whose name ends in `.png` would also be listed; the model does not tell files from directories.
- `main` (teenypng.py:153-168) and its `ThreadPoolExecutor` dispatch. This is concurrency; `executor.map`'s results are never read, so the exception from a failed stage is dropped silently. Each job is modelled alone by `Pipeline.ProcessImage`.
- argparse parsing of the script arguments, `sys.exit`, and all printing (teenypng.py:138-150). `Config.ScriptArgs` returns the argument list that argparse would receive.

=== FILE: config.dfy ===
/**
 * Start-up configuration of teenypng.py: the worker-pool size and the split
 * of the host application's command line at the first "--".
 */
module Config {
  import opened Wrappers

  /**
   * `NUM_THREADS = max(1, os.cpu_count() - 4)`. `os.cpu_count()` answers
   * `None` when the count is unknown; the subtraction then raises, which is
   * modelled as `None`.
   */
  function WorkerCount(cpus: Option<int>): (r: Option<int>)
    ensures r.Some? <==> cpus.Some?
    ensures r.Some? ==> r.value >= 1 && r.value >= cpus.value - 4
    ensures r.Some? ==> r.value == 1 || r.value == cpus.value - 4
  {
    match cpus
    case None => None
    case Some(n) => Some(if n - 4 > 1 then n - 4 else 1)
  }

  /** `xs.index(x)`: the position of the first occurrence, `None` where Python raises. */
  function IndexOf(xs: seq<string>, x: string): (r: Option<nat>)
    ensures r.None? <==> x !in xs
    ensures r.Some? ==> r.value < |xs| && xs[r.value] == x && x !in xs[..r.value]
  {
    if |xs| == 0 then None
    else if xs[0] == x then Some(0)
    else match IndexOf(xs[1..], x)
      case None => None
      case Some(i) =>
        assert xs[..i + 1] == [xs[0]] + xs[1..][..i];
        Some(i + 1)
  }

  /**
   * The script's own arguments: everything after the first "--" of `argv`.
   * Without a "--" the script exits, modelled as `None`.
   */
  function ScriptArgs(argv: seq<string>): (r: Option<seq<string>>)
    ensures r.None? <==> "--" !in argv
    ensures r.Some? ==>
      exists k :: 0 <= k < |argv| && argv[k] == "--" && "--" !in argv[..k] && r.value == argv[k + 1..]
  {
    match IndexOf(argv, "--")
    case None => None
    case Some(k) => Some(argv[k + 1..])
  }

  /**
   * Host arguments without a "--", the separator, then the script's
   * arguments: the split recovers exactly the script's arguments, even when
   * they contain further "--".
   */
  lemma ScriptArgsAfterFirstSeparator(host: seq<string>, script: seq<string>)
    requires "--" !in host
    ensures ScriptArgs(host + ["--"] + script) == Some(script)
  {
    var argv := host + ["--"] + script;
    assert argv[|host|] == "--";
    assert argv[..|host|] == host;
    assert argv[|host| + 1..] == script;
  }
}

=== FILE: discovery.dfy ===
/**
 * PNG file discovery (`get_png_files` in teenypng.py).
 *
 * The host filesystem is not consulted directly: what `os.path.isfile` /
 * `os.path.isdir` answer for the input path, what `os.listdir` lists and what
 * `os.walk` yields are passed in as values.
 */
module Discovery {
  import opened Text

  /** What the filesystem says the input path is. */
  datatype PathKind = RegularFile | Directory | Missing

  /** One `(root, dirs, files)` triple produced by `os.walk`; `dirs` is unused. */
  datatype WalkEntry = WalkEntry(root: string, files: seq<string>)

  /** The discovery filter: the lower-cased name ends with ".png". */
  predicate IsPngName(name: string)
  {
    EndsWith(LowerStr(name), ".png")
  }

  /**
   * The filter, stated without lowering: the last four characters are a dot
   * and the letters p, n, g in either case.
   */
  lemma PngNameByLastFour(name: string)
    ensures IsPngName(name) <==>
      && |name| >= 4
      && name[|name| - 4] == '.'
      && name[|name| - 3] in {'p', 'P'}
      && name[|name| - 2] in {'n', 'N'}
      && name[|name| - 1] in {'g', 'G'}
  {
  }

  /** Upper- and mixed-case extensions are accepted, other extensions are not. */
  lemma PngNameExamples()
    ensures IsPngName("IMG.PNG") && IsPngName("icon.Png") && IsPngName("a.png")
    ensures !IsPngName("photo.jpg") && !IsPngName("png") && !IsPngName("x.png.bak")
  {
    PngNameByLastFour("IMG.PNG");
    PngNameByLastFour("icon.Png");
    PngNameByLastFour("a.png");
    PngNameByLastFour("photo.jpg");
    PngNameByLastFour("png");
    PngNameByLastFour("x.png.bak");
  }

  /**
   * `os.path.join(dir, name)` for one component, as posixpath does it: an
   * absolute name replaces the directory; otherwise the result is the
   * directory, a separator only if the directory does not already end with
   * one, and the name.
   */
  function Join(dir: string, name: string): (r: string)
    ensures |name| > 0 && name[0] == '/' ==> r == name
    ensures !(|name| > 0 && name[0] == '/') ==>
      && |dir| + |name| <= |r| <= |dir| + |name| + 1
      && r[..|dir|] == dir
      && r[|r| - |name|..] == name
      && (|dir| > 0 && dir[|dir| - 1] != '/' ==> |r| > |dir| && r[|dir|] == '/')
      && (|dir| == 0 || dir[|dir| - 1] == '/' <==> |r| == |dir| + |name|)
  {
    if |name| > 0 && name[0] == '/' then name
    else if |dir| == 0 || dir[|dir| - 1] == '/' then dir + name
    else dir + "/" + name
  }

  /** The names that pass the filter, in their original order. */
  function FilterPng(names: seq<string>): (r: seq<string>)
    ensures |r| <= |names|
    ensures forall x :: x in r ==> x in names && IsPngName(x)
    ensures forall x :: x in names && IsPngName(x) ==> x in r
  {
    if |names| == 0 then []
    else if IsPngName(names[0]) then [names[0]] + FilterPng(names[1..])
    else FilterPng(names[1..])
  }

  /** Filtering distributes over concatenation: the listing order is kept. */
  lemma {:induction false} FilterPngAppend(a: seq<string>, b: seq<string>)
    ensures FilterPng(a + b) == FilterPng(a) + FilterPng(b)
  {
    if |a| == 0 {
      assert a + b == b;
    } else {
      assert (a + b)[1..] == a[1..] + b;
      FilterPngAppend(a[1..], b);
    }
  }

  /** `[os.path.join(dir, f) for f in names]`. */
  function JoinAll(dir: string, names: seq<string>): (r: seq<string>)
    ensures |r| == |names|
    ensures forall i :: 0 <= i < |names| ==> r[i] == Join(dir, names[i])
  {
    seq(|names|, i requires 0 <= i < |names| => Join(dir, names[i]))
  }

  /** The paths one `os.walk` step contributes. */
  function StepPngs(e: WalkEntry): seq<string>
  {
    JoinAll(e.root, FilterPng(e.files))
  }

  /** `x` is the join of the step's root with one of its PNG names. */
  predicate StepHas(e: WalkEntry, x: string)
  {
    exists f | f in e.files :: IsPngName(f) && x == Join(e.root, f)
  }

  /** A step contributes exactly the joins of its PNG names. */
  lemma StepPngsMembers(e: WalkEntry, x: string)
    ensures x in StepPngs(e) <==> StepHas(e, x)
  {
  }

  /** The recursive mode: the PNG paths of every walk step, in walk order. */
  function WalkPngs(walk: seq<WalkEntry>): (r: seq<string>)
    ensures forall x :: x in r <==> exists i | 0 <= i < |walk| :: StepHas(walk[i], x)
  {
    if |walk| == 0 then []
    else
      var rest := WalkPngs(walk[1..]);
      var r := StepPngs(walk[0]) + rest;
      assert forall x :: x in r <==> exists i | 0 <= i < |walk| :: StepHas(walk[i], x) by {
        forall x ensures x in r <==> exists i | 0 <= i < |walk| :: StepHas(walk[i], x) {
          StepPngsMembers(walk[0], x);
          if x in rest {
            var i :| 0 <= i < |walk[1..]| && StepHas(walk[1..][i], x);
            assert StepHas(walk[i + 1], x);
          }
          if exists i | 0 <= i < |walk| :: StepHas(walk[i], x) {
            var i :| 0 <= i < |walk| && StepHas(walk[i], x);
            if i > 0 {
              assert StepHas(walk[1..][i - 1], x);
            }
          }
        }
      }
      r
  }

  /** The flat mode: `[os.path.join(dir, f) for f in listing if <f passes>]`. */
  function FlatPngs(dir: string, listing: seq<string>): (r: seq<string>)
    ensures |r| <= |listing|
  {
    JoinAll(dir, FilterPng(listing))
  }

  /**
   * The flat mode gives at most one path per entry, each the directory
   * joined with a PNG entry, and every such join.
   */
  lemma FlatPngsMembers(dir: string, listing: seq<string>)
    ensures |FlatPngs(dir, listing)| <= |listing|
    ensures forall x :: x in FlatPngs(dir, listing) ==>
      exists f :: f in listing && IsPngName(f) && x == Join(dir, f)
    ensures forall f :: f in listing && IsPngName(f) ==> Join(dir, f) in FlatPngs(dir, listing)
  {
  }

  /**
   * `get_png_files(input_path, recursive)`: an existing file is kept iff its
   * name passes the filter, a directory is listed flat or walked, and any
   * other path gives nothing.
   */
  function GetPngFiles(input: string, kind: PathKind, recursive: bool,
                       listing: seq<string>, walk: seq<WalkEntry>): (r: seq<string>)
    ensures kind == RegularFile ==> r == (if IsPngName(input) then [input] else [])
    ensures kind == Missing ==> r == []
    ensures kind == Directory && !recursive ==> r == FlatPngs(input, listing)
    ensures kind == Directory && recursive ==> r == WalkPngs(walk)
  {
    if kind == RegularFile && IsPngName(input) then [input]
    else if kind == Directory then
      if recursive then WalkPngs(walk) else FlatPngs(input, listing)
    else []
  }

  /**
   * The flat listing mode keeps the listing order: its result is exactly the
   * joined names that pass the filter, in the order `os.listdir` gave them.
   */
  lemma FlatModeInListingOrder(dir: string, a: seq<string>, b: seq<string>)
    ensures FlatPngs(dir, a + b) == FlatPngs(dir, a) + FlatPngs(dir, b)
  {
    FilterPngAppend(a, b);
    assert JoinAll(dir, FilterPng(a) + FilterPng(b)) == JoinAll(dir, FilterPng(a)) + JoinAll(dir, FilterPng(b));
  }

  /**
   * When the top directory holds only files, the flat result is the start of
   * the recursive one: `os.walk` reports the top directory first, and the
   * flat mode stops there.
   */
  lemma FlatIsPrefixOfRecursive(input: string, listing: seq<string>, walk: seq<WalkEntry>)
    requires |walk| > 0 && walk[0] == WalkEntry(input, listing)
    ensures GetPngFiles(input, Directory, false, listing, walk)
         <= GetPngFiles(input, Directory, true, listing, walk)
  {
  }
}

=== FILE: pipeline.dfy ===
/**
 * `process_image`: the per-file pipeline. Resize runs when a size was given,
 * pngquant when a quality was given, zopflipng always and last. The three
 * external programs are oracles collected in `Tools`.
 */
module Pipeline {
  import opened Wrappers
  import opened Text
  import opened Stages

  /** The stages, in the order the pipeline runs them. */
  datatype Stage = ResizeStep | QuantizeStep | OptimizeStep

  function Rank(s: Stage): nat
  {
    match s
    case ResizeStep => 0
    case QuantizeStep => 1
    case OptimizeStep => 2
  }

  /** Each stage in `trace` comes strictly after the ones before it in pipeline order. */
  predicate InPipelineOrder(trace: seq<Stage>)
  {
    forall i, j | 0 <= i < j < |trace| :: Rank(trace[i]) < Rank(trace[j])
  }

  /** The parsed `--size`, `--quality` and `--iterations` arguments. */
  datatype Params = Params(size: Option<int>, quality: Option<int>, iterations: int)

  /**
   * The external programs and the parts of the environment the model does
   * not look into. `resample` gives the pixels of the scaled image;
   * `pngquant` and `zopflipng` give what they write at the side path for a
   * given input and quality / iteration count, or `None` when they write
   * nothing. `pngquantStarts` and `zopflipngStarts` tell whether the
   * configured executable can be started at all (the paths are only warned
   * about when missing), and `canCreate` whether a new file can be written
   * at a path.
   */
  datatype Tools = Tools(
    resample: (Content, Dim, Dim) -> seq<bv8>,
    pngquant: (Content, int) -> Option<Content>,
    zopflipng: (Content, int) -> Option<Content>,
    pngquantStarts: bool,
    zopflipngStarts: bool,
    canCreate: string -> bool)

  /** The exception that ends a job: one from the resize, or a tool that could not be started. */
  datatype Failure = ResizeFailed(reason: ResizeError) | NotStarted(tool: Stage)

  /** The stage that raised `f`. */
  function FailedStage(f: Failure): Stage
  {
    match f
    case ResizeFailed(_) => ResizeStep
    case NotStarted(tool) => tool
  }

  /** The filesystem after some stages, and the exception that ended them, if any. */
  datatype Outcome = Outcome(fs: Fs, crash: Option<Failure>)

  /** The final filesystem, the stages invoked in order, and the exception that ended the job early, if any. */
  datatype Run = Run(fs: Fs, invoked: seq<Stage>, crash: Option<Failure>)

  /** Python truthiness of an optional integer argument: neither `None` nor 0. */
  predicate Truthy(v: Option<int>)
  {
    v.Some? && v.value != 0
  }

  /**
   * What a tool writes at `side` when run on `input`: nothing if there is no
   * file to read or no file can be created at `side`.
   */
  function ToolOutput(fs: Fs, input: string, side: string, tool: (Content, int) -> Option<Content>, arg: int,
                      canCreate: string -> bool): Option<Content>
  {
    if input in fs && canCreate(side) then tool(fs[input], arg) else None
  }

  /**
   * `compress_with_pngquant(input, quality)` once pngquant has started: the
   * file is replaced iff pngquant could write its output at the side path,
   * or a file already sits there.
   */
  function Quantize(fs: Fs, input: string, quality: int, tools: Tools): (r: StageResult)
    ensures var side := SidePath(input, PngquantSuffix);
      && (r.replaced <==> (input in fs && tools.canCreate(side) && tools.pngquant(fs[input], quality).Some?) || side in fs)
      && (!r.replaced ==> r.fs == fs)
      && (r.replaced ==>
            && input in r.fs
            && r.fs[input] == (if input in fs && tools.canCreate(side) && tools.pngquant(fs[input], quality).Some?
                               then tools.pngquant(fs[input], quality).value else fs[side]))
      && (r.replaced && side != input ==> side !in r.fs)
      && SameExcept(fs, r.fs, {input, side})
  {
    CompressStage(fs, input, PngquantSuffix,
      ToolOutput(fs, input, SidePath(input, PngquantSuffix), tools.pngquant, quality, tools.canCreate))
  }

  /**
   * `compress_with_zopfli(input, iterations)` once zopflipng has started:
   * the file is replaced iff zopflipng could write its output at the side
   * path, or a file already sits there.
   */
  function Optimize(fs: Fs, input: string, iterations: int, tools: Tools): (r: StageResult)
    ensures var side := SidePath(input, ZopfliSuffix);
      && (r.replaced <==> (input in fs && tools.canCreate(side) && tools.zopflipng(fs[input], iterations).Some?) || side in fs)
      && (!r.replaced ==> r.fs == fs)
      && (r.replaced ==>
            && input in r.fs
            && r.fs[input] == (if input in fs && tools.canCreate(side) && tools.zopflipng(fs[input], iterations).Some?
                               then tools.zopflipng(fs[input], iterations).value else fs[side]))
      && (r.replaced && side != input ==> side !in r.fs)
      && SameExcept(fs, r.fs, {input, side})
  {
    CompressStage(fs, input, ZopfliSuffix,
      ToolOutput(fs, input, SidePath(input, ZopfliSuffix), tools.zopflipng, iterations, tools.canCreate))
  }

  /** The paths a job on `path` may create, change or remove. */
  function Touched(path: string): set<string>
  {
    {path, SidePath(path, ResizedSuffix), SidePath(path, PngquantSuffix), SidePath(path, ZopfliSuffix)}
  }

  /** The resize raises: no file, an undecodable file, a scaled size below 1, or a side path that cannot be created. */
  predicate ResizeRaises(fs: Fs, path: string, pct: int, canCreate: string -> bool)
  {
    path !in fs || fs[path].Unreadable?
    || NewDim(fs[path].width, pct) < 1 || NewDim(fs[path].height, pct) < 1
    || !canCreate(SidePath(path, ResizedSuffix))
  }

  /** Running stage `s` on `fs` raises. Only the resize depends on the file. */
  predicate StepRaises(fs: Fs, path: string, s: Stage, p: Params, tools: Tools)
  {
    match s
    case ResizeStep => p.size.Some? && ResizeRaises(fs, path, p.size.value, tools.canCreate)
    case QuantizeStep => !tools.pngquantStarts
    case OptimizeStep => !tools.zopflipngStarts
  }

  /**
   * What running one stage on `path` does: the resize stage followed by
   * `os.replace`, `compress_with_pngquant` or `compress_with_zopfli`. A
   * tool that cannot be started raises before it writes anything. A stage
   * whose argument is absent does nothing; the pipeline never invokes one.
   */
  function StepFs(fs: Fs, path: string, s: Stage, p: Params, tools: Tools): (r: Outcome)
    ensures r.crash.Some? <==> StepRaises(fs, path, s, p, tools)
    ensures r.crash.Some? ==> r.fs == fs && FailedStage(r.crash.value) == s
    ensures r.crash.Some? ==> (r.crash.value.ResizeFailed? <==> s == ResizeStep)
    ensures SameExcept(fs, r.fs, Touched(path))
  {
    match s
    case ResizeStep =>
      if p.size.None? then Outcome(fs, None)
      else
        (match ResizeStage(fs, path, p.size.value, tools.resample, tools.canCreate)
         case Ok(resized) => Outcome(resized, None)
         case Err(e) => Outcome(fs, Some(ResizeFailed(e))))
    case QuantizeStep =>
      if !tools.pngquantStarts then Outcome(fs, Some(NotStarted(QuantizeStep)))
      else if p.quality.None? then Outcome(fs, None)
      else Outcome(Quantize(fs, path, p.quality.value, tools).fs, None)
    case OptimizeStep =>
      if !tools.zopflipngStarts then Outcome(fs, Some(NotStarted(OptimizeStep)))
      else Outcome(Optimize(fs, path, p.iterations, tools).fs, None)
  }

  /** `t` is an initial segment of `u`. */
  predicate IsPrefix(t: seq<Stage>, u: seq<Stage>)
  {
    |t| <= |u| && t == u[..|t|]
  }

  /**
   * Runs the stages of `trace` one after another on `path`. The first
   * exception ends the run: the stage that raised is the last one invoked
   * and the filesystem is left as it was when it raised.
   */
  function RunTrace(fs: Fs, path: string, trace: seq<Stage>, p: Params, tools: Tools): (r: Run)
    ensures IsPrefix(r.invoked, trace)
    ensures |trace| > 0 ==> |r.invoked| > 0
    ensures r.crash.None? ==> r.invoked == trace
    ensures r.crash.Some? ==>
      |r.invoked| > 0 && r.invoked[|r.invoked| - 1] == FailedStage(r.crash.value)
    ensures SameExcept(fs, r.fs, Touched(path))
    decreases |trace|
  {
    if |trace| == 0 then Run(fs, [], None)
    else
      var first := StepFs(fs, path, trace[0], p, tools);
      if first.crash.Some? then Run(fs, [trace[0]], first.crash)
      else
        var rest := RunTrace(first.fs, path, trace[1..], p, tools);
        Run(rest.fs, [trace[0]] + rest.invoked, rest.crash)
  }

  /** A trace that starts with `s`: `s` runs first, and the rest runs only if it did not raise. */
  lemma RunTraceCons(fs: Fs, path: string, s: Stage, rest: seq<Stage>, p: Params, tools: Tools)
    ensures var first := StepFs(fs, path, s, p, tools);
      var r := RunTrace(fs, path, [s] + rest, p, tools);
      && (first.crash.Some? ==> r == Run(fs, [s], first.crash))
      && (first.crash.None? ==>
            var tail := RunTrace(first.fs, path, rest, p, tools);
            r == Run(tail.fs, [s] + tail.invoked, tail.crash))
  {
    assert ([s] + rest)[0] == s;
    assert ([s] + rest)[1..] == rest;
  }

  /** A one-stage trace does what its stage does. */
  lemma RunTraceOne(fs: Fs, path: string, s: Stage, p: Params, tools: Tools)
    ensures var o := StepFs(fs, path, s, p, tools);
      RunTrace(fs, path, [s], p, tools) == Run(o.fs, [s], o.crash)
  {
    RunTraceCons(fs, path, s, [], p, tools);
    assert [s] + [] == [s];
  }

  /** An initial segment of a trace in pipeline order is in pipeline order. */
  lemma PrefixInOrder(t: seq<Stage>, u: seq<Stage>)
    requires IsPrefix(t, u) && InPipelineOrder(u)
    ensures InPipelineOrder(t)
  {
    forall i, j | 0 <= i < j < |t| ensures Rank(t[i]) < Rank(t[j]) {
      assert t[i] == u[i] && t[j] == u[j];
    }
  }

  /** The compressor stages of a job: pngquant if a quality was given, then zopflipng. */
  function CompressionPlan(p: Params): seq<Stage>
  {
    (if Truthy(p.quality) then [QuantizeStep] else []) + [OptimizeStep]
  }

  /**
   * The stages `process_image` runs when nothing raises: resize if a size
   * was given, pngquant if a quality was given, zopflipng always, in that
   * order and each at most once.
   */
  function Plan(p: Params): (t: seq<Stage>)
    ensures ResizeStep in t <==> Truthy(p.size)
    ensures QuantizeStep in t <==> Truthy(p.quality)
    ensures |t| > 0 && t[|t| - 1] == OptimizeStep && multiset(t)[OptimizeStep] == 1
    ensures InPipelineOrder(t)
  {
    (if Truthy(p.size) then [ResizeStep] else []) + CompressionPlan(p)
  }

  /** A size was given and the resize raises. */
  predicate ResizeFails(fs: Fs, path: string, p: Params, tools: Tools)
  {
    Truthy(p.size) && ResizeRaises(fs, path, p.size.value, tools.canCreate)
  }

  /** A quality was given and pngquant cannot be started. */
  predicate QuantizerMissing(p: Params, tools: Tools)
  {
    Truthy(p.quality) && !tools.pngquantStarts
  }

  /**
   * The compressor stages run on any filesystem: pngquant is invoked iff a
   * quality was given, zopflipng iff pngquant did not fail to start, and
   * the run completes iff both tools it needs start.
   */
  lemma CompressionsOutcome(fs: Fs, path: string, p: Params, tools: Tools)
    ensures var r := RunTrace(fs, path, CompressionPlan(p), p, tools);
      && (QuantizeStep in r.invoked <==> Truthy(p.quality))
      && (OptimizeStep in r.invoked <==> !QuantizerMissing(p, tools))
      && (r.crash.None? <==> !QuantizerMissing(p, tools) && tools.zopflipngStarts)
  {
    if Truthy(p.quality) {
      assert CompressionPlan(p) == [QuantizeStep] + [OptimizeStep];
      RunTraceCons(fs, path, QuantizeStep, [OptimizeStep], p, tools);
      RunTraceOne(StepFs(fs, path, QuantizeStep, p, tools).fs, path, OptimizeStep, p, tools);
    } else {
      assert CompressionPlan(p) == [OptimizeStep];
      RunTraceOne(fs, path, OptimizeStep, p, tools);
    }
  }

  /**
   * `process_image(path, size, quality, iterations)`: the planned stages run
   * in order, and the first exception, from the resize or from a tool that
   * cannot be started, ends the job.
   */
  function ProcessImage(fs: Fs, path: string, p: Params, tools: Tools): (r: Run)
    ensures ResizeStep in r.invoked <==> Truthy(p.size)
    ensures QuantizeStep in r.invoked <==> Truthy(p.quality) && !ResizeFails(fs, path, p, tools)
    ensures OptimizeStep in r.invoked <==> !ResizeFails(fs, path, p, tools) && !QuantizerMissing(p, tools)
    ensures r.crash.None? <==>
      !ResizeFails(fs, path, p, tools) && !QuantizerMissing(p, tools) && tools.zopflipngStarts
    ensures r.crash.Some? && r.crash.value.ResizeFailed? ==> r.fs == fs
    ensures r.crash.None? ==>
      |r.invoked| > 0 && r.invoked[|r.invoked| - 1] == OptimizeStep && multiset(r.invoked)[OptimizeStep] == 1
    ensures r.crash.Some? ==>
      |r.invoked| > 0 && r.invoked[|r.invoked| - 1] == FailedStage(r.crash.value)
    ensures InPipelineOrder(r.invoked)
    ensures SameExcept(fs, r.fs, Touched(path))
  {
    ProcessImageStages(fs, path, p, tools);
    RunTrace(fs, path, Plan(p), p, tools)
  }

  /** The stages a whole job reaches, split on whether a size was given. */
  lemma ProcessImageStages(fs: Fs, path: string, p: Params, tools: Tools)
    ensures var r := RunTrace(fs, path, Plan(p), p, tools);
      && (ResizeStep in r.invoked <==> Truthy(p.size))
      && (QuantizeStep in r.invoked <==> Truthy(p.quality) && !ResizeFails(fs, path, p, tools))
      && (OptimizeStep in r.invoked <==> !ResizeFails(fs, path, p, tools) && !QuantizerMissing(p, tools))
      && (r.crash.None? <==> !ResizeFails(fs, path, p, tools) && !QuantizerMissing(p, tools) && tools.zopflipngStarts)
      && (r.crash.Some? && r.crash.value.ResizeFailed? ==> r.fs == fs)
      && InPipelineOrder(r.invoked)
  {
    PrefixInOrder(RunTrace(fs, path, Plan(p), p, tools).invoked, Plan(p));
    if Truthy(p.size) {
      ResizedJobStages(fs, path, p, tools);
    } else {
      UnresizedJobStages(fs, path, p, tools);
    }
  }

  /** With a size given, the resize runs first and the compressors only if it did not raise. */
  lemma ResizedJobStages(fs: Fs, path: string, p: Params, tools: Tools)
    requires Truthy(p.size)
    ensures var r := RunTrace(fs, path, Plan(p), p, tools);
      && (ResizeStep in r.invoked <==> Truthy(p.size))
      && (QuantizeStep in r.invoked <==> Truthy(p.quality) && !ResizeFails(fs, path, p, tools))
      && (OptimizeStep in r.invoked <==> !ResizeFails(fs, path, p, tools) && !QuantizerMissing(p, tools))
      && (r.crash.None? <==> !ResizeFails(fs, path, p, tools) && !QuantizerMissing(p, tools) && tools.zopflipngStarts)
      && (r.crash.Some? && r.crash.value.ResizeFailed? ==> r.fs == fs)
  {
    assert Plan(p) == [ResizeStep] + CompressionPlan(p);
    RunTraceCons(fs, path, ResizeStep, CompressionPlan(p), p, tools);
    var first := StepFs(fs, path, ResizeStep, p, tools);
    if first.crash.None? {
      CompressionsOutcome(first.fs, path, p, tools);
    }
  }

  /** Without a size, the job is the compressor stages alone. */
  lemma UnresizedJobStages(fs: Fs, path: string, p: Params, tools: Tools)
    requires !Truthy(p.size)
    ensures var r := RunTrace(fs, path, Plan(p), p, tools);
      && (ResizeStep in r.invoked <==> Truthy(p.size))
      && (QuantizeStep in r.invoked <==> Truthy(p.quality) && !ResizeFails(fs, path, p, tools))
      && (OptimizeStep in r.invoked <==> !ResizeFails(fs, path, p, tools) && !QuantizerMissing(p, tools))
      && (r.crash.None? <==> !ResizeFails(fs, path, p, tools) && !QuantizerMissing(p, tools) && tools.zopflipngStarts)
      && (r.crash.Some? && r.crash.value.ResizeFailed? ==> r.fs == fs)
  {
    assert Plan(p) == CompressionPlan(p);
    CompressionsOutcome(fs, path, p, tools);
  }

  /**
   * A quantizer that never writes anything, with no leftover file at its
   * side path, leaves the filesystem as it was (an `IMG.PNG` whose side path
   * is itself included), and zopflipng then runs on that unchanged file,
   * whatever the resize did before.
   */
  lemma FailingQuantizerStillOptimizes(fs: Fs, path: string, p: Params, tools: Tools)
    requires Truthy(p.quality) && tools.pngquantStarts
    requires forall c :: tools.pngquant(c, p.quality.value) == None
    requires NoStaleSide(fs, path, PngquantSuffix)
    ensures Quantize(fs, path, p.quality.value, tools).fs == fs
    ensures SidePath(path, PngquantSuffix) != path ==> !Quantize(fs, path, p.quality.value, tools).replaced
    ensures var r := RunTrace(fs, path, CompressionPlan(p), p, tools);
      && r.invoked == [QuantizeStep, OptimizeStep]
      && (tools.zopflipngStarts ==> r.crash.None? && r.fs == Optimize(fs, path, p.iterations, tools).fs)
  {
    assert CompressionPlan(p) == [QuantizeStep] + [OptimizeStep];
    RunTraceCons(fs, path, QuantizeStep, [OptimizeStep], p, tools);
    RunTraceOne(fs, path, OptimizeStep, p, tools);
  }

  /** A started pngquant that can write `a` at its side path leaves `a` in the file. */
  lemma QuantizeStepWrites(fs: Fs, path: string, p: Params, tools: Tools, a: Content)
    requires Truthy(p.quality) && tools.pngquantStarts && path in fs
    requires tools.canCreate(SidePath(path, PngquantSuffix))
    requires tools.pngquant(fs[path], p.quality.value) == Some(a)
    ensures var o := StepFs(fs, path, QuantizeStep, p, tools);
      o.crash.None? && path in o.fs && o.fs[path] == a
  {
  }

  /** A started zopflipng that can write `b` at its side path leaves `b` in the file. */
  lemma OptimizeStepWrites(fs: Fs, path: string, p: Params, tools: Tools, b: Content)
    requires tools.zopflipngStarts && path in fs
    requires tools.canCreate(SidePath(path, ZopfliSuffix))
    requires tools.zopflipng(fs[path], p.iterations) == Some(b)
    ensures var o := StepFs(fs, path, OptimizeStep, p, tools);
      o.crash.None? && path in o.fs && o.fs[path] == b
  {
  }

  /**
   * pngquant's output is the file zopflipng reads: when pngquant turns the
   * file into `a` and zopflipng turns `a` into `b`, the job ends with `b`.
   */
  lemma QuantizedFileIsOptimized(fs: Fs, path: string, p: Params, tools: Tools, a: Content, b: Content)
    requires !Truthy(p.size) && Truthy(p.quality)
    requires tools.pngquantStarts && tools.zopflipngStarts
    requires tools.canCreate(SidePath(path, PngquantSuffix)) && tools.canCreate(SidePath(path, ZopfliSuffix))
    requires path in fs && tools.pngquant(fs[path], p.quality.value) == Some(a)
    requires tools.zopflipng(a, p.iterations) == Some(b)
    ensures var r := ProcessImage(fs, path, p, tools);
      r.crash.None? && path in r.fs && r.fs[path] == b
  {
    QuantizeStepWrites(fs, path, p, tools, a);
    var q := StepFs(fs, path, QuantizeStep, p, tools).fs;
    OptimizeStepWrites(q, path, p, tools, b);
    assert Plan(p) == [QuantizeStep] + [OptimizeStep];
    RunTraceCons(fs, path, QuantizeStep, [OptimizeStep], p, tools);
    RunTraceOne(q, path, OptimizeStep, p, tools);
  }

  /** Two images have the same pixel dimensions. */
  predicate SameDims(a: Content, b: Content)
  {
    a.Png? && b.Png? && a.width == b.width && a.height == b.height
  }

  /** A tool whose output, for a decodable input, has the input's dimensions. */
  ghost predicate KeepsDims(tool: (Content, int) -> Option<Content>)
  {
    forall c: Content, arg: int :: c.Png? && tool(c, arg).Some? ==> SameDims(c, tool(c, arg).value)
  }

  /** No file left over from an earlier run sits at the stage's side path. */
  predicate NoStaleSide(fs: Fs, path: string, suffix: string)
  {
    SidePath(path, suffix) == path || SidePath(path, suffix) !in fs
  }

  /**
   * A compressor that keeps dimensions keeps the file's dimensions, and it
   * leaves no file at its own or any other stage's side path.
   */
  lemma CompressKeepsDims(fs: Fs, path: string, suffix: string, tool: (Content, int) -> Option<Content>,
                          arg: int, canCreate: string -> bool, other: string)
    requires path in fs && fs[path].Png?
    requires KeepsDims(tool) && NoStaleSide(fs, path, suffix)
    ensures var r := CompressStage(fs, path, suffix, ToolOutput(fs, path, SidePath(path, suffix), tool, arg, canCreate));
      && path in r.fs && SameDims(fs[path], r.fs[path])
      && (NoStaleSide(fs, path, other) ==> NoStaleSide(r.fs, path, other))
  {
  }

  /** A compressor stage keeps the file's dimensions and leaves no stale file at either compressor's side path. */
  lemma CompressorStepKeepsDims(fs: Fs, path: string, s: Stage, p: Params, tools: Tools)
    requires s != ResizeStep
    requires path in fs && fs[path].Png?
    requires KeepsDims(tools.pngquant) && KeepsDims(tools.zopflipng)
    requires NoStaleSide(fs, path, PngquantSuffix) && NoStaleSide(fs, path, ZopfliSuffix)
    ensures var r := StepFs(fs, path, s, p, tools).fs;
      && path in r && SameDims(fs[path], r[path])
      && NoStaleSide(r, path, PngquantSuffix) && NoStaleSide(r, path, ZopfliSuffix)
  {
    if s == QuantizeStep && tools.pngquantStarts && p.quality.Some? {
      CompressKeepsDims(fs, path, PngquantSuffix, tools.pngquant, p.quality.value, tools.canCreate, PngquantSuffix);
      CompressKeepsDims(fs, path, PngquantSuffix, tools.pngquant, p.quality.value, tools.canCreate, ZopfliSuffix);
    } else if s == OptimizeStep && tools.zopflipngStarts {
      CompressKeepsDims(fs, path, ZopfliSuffix, tools.zopflipng, p.iterations, tools.canCreate, PngquantSuffix);
      CompressKeepsDims(fs, path, ZopfliSuffix, tools.zopflipng, p.iterations, tools.canCreate, ZopfliSuffix);
    }
  }

  /** The stages after the resize keep the dimensions of the file they start on, whether or not a tool starts. */
  lemma CompressionsKeepDims(fs: Fs, path: string, p: Params, tools: Tools)
    requires path in fs && fs[path].Png?
    requires KeepsDims(tools.pngquant) && KeepsDims(tools.zopflipng)
    requires NoStaleSide(fs, path, PngquantSuffix) && NoStaleSide(fs, path, ZopfliSuffix)
    ensures var r := RunTrace(fs, path, CompressionPlan(p), p, tools).fs;
      path in r && SameDims(fs[path], r[path])
  {
    if Truthy(p.quality) {
      assert CompressionPlan(p) == [QuantizeStep] + [OptimizeStep];
      RunTraceCons(fs, path, QuantizeStep, [OptimizeStep], p, tools);
      CompressorStepKeepsDims(fs, path, QuantizeStep, p, tools);
      var q := StepFs(fs, path, QuantizeStep, p, tools).fs;
      RunTraceOne(q, path, OptimizeStep, p, tools);
      CompressorStepKeepsDims(q, path, OptimizeStep, p, tools);
    } else {
      assert CompressionPlan(p) == [OptimizeStep];
      RunTraceOne(fs, path, OptimizeStep, p, tools);
      CompressorStepKeepsDims(fs, path, OptimizeStep, p, tools);
    }
  }

  /**
   * Without `--size`, and with compressors that keep dimensions, the file
   * ends with the pixel dimensions it started with; the job completes iff
   * the tools it needs can be started.
   */
  lemma DimensionsKeptWithoutResize(fs: Fs, path: string, p: Params, tools: Tools)
    requires !Truthy(p.size)
    requires path in fs && fs[path].Png?
    requires KeepsDims(tools.pngquant) && KeepsDims(tools.zopflipng)
    requires NoStaleSide(fs, path, PngquantSuffix) && NoStaleSide(fs, path, ZopfliSuffix)
    ensures var r := ProcessImage(fs, path, p, tools);
      && (r.crash.None? <==> !QuantizerMissing(p, tools) && tools.zopflipngStarts)
      && path in r.fs && SameDims(fs[path], r.fs[path])
  {
    assert Plan(p) == CompressionPlan(p);
    CompressionsKeepDims(fs, path, p, tools);
  }

  /** A successful resize leaves no file at a side path that had none. */
  lemma ResizeLeavesSidesFresh(fs: Fs, path: string, pct: int, tools: Tools, suffix: string)
    requires ResizeStage(fs, path, pct, tools.resample, tools.canCreate).Ok?
    requires NoStaleSide(fs, path, suffix)
    ensures NoStaleSide(ResizeStage(fs, path, pct, tools.resample, tools.canCreate).value, path, suffix)
  {
  }

  /**
   * `--size 50` on a WxH image (both at least 2) whose resize output can be
   * saved, with compressors that keep dimensions, gives a floor(W/2) x
   * floor(H/2) image; when the tools start, zopflipng runs exactly once.
   */
  lemma HalfSizeScenario(fs: Fs, path: string, p: Params, tools: Tools)
    requires p.size == Some(50) && tools.canCreate(SidePath(path, ResizedSuffix))
    requires path in fs && fs[path].Png? && fs[path].width >= 2 && fs[path].height >= 2
    requires KeepsDims(tools.pngquant) && KeepsDims(tools.zopflipng)
    requires NoStaleSide(fs, path, PngquantSuffix) && NoStaleSide(fs, path, ZopfliSuffix)
    ensures var r := ProcessImage(fs, path, p, tools);
      && (tools.zopflipngStarts && !QuantizerMissing(p, tools) ==>
            r.crash.None? && multiset(r.invoked)[OptimizeStep] == 1)
      && path in r.fs && r.fs[path].Png?
      && r.fs[path].width == fs[path].width / 2
      && r.fs[path].height == fs[path].height / 2
  {
    NewDimFullAndHalf(fs[path].width);
    NewDimFullAndHalf(fs[path].height);
    assert !ResizeFails(fs, path, p, tools);
    var resized := ResizeStage(fs, path, 50, tools.resample, tools.canCreate);
    assert resized.Ok?;
    var first := StepFs(fs, path, ResizeStep, p, tools);
    assert first == Outcome(resized.value, None);
    assert Plan(p) == [ResizeStep] + CompressionPlan(p);
    RunTraceCons(fs, path, ResizeStep, CompressionPlan(p), p, tools);
    assert ProcessImage(fs, path, p, tools).fs == RunTrace(resized.value, path, CompressionPlan(p), p, tools).fs;
    ResizeLeavesSidesFresh(fs, path, 50, tools, PngquantSuffix);
    ResizeLeavesSidesFresh(fs, path, 50, tools, ZopfliSuffix);
    CompressionsKeepDims(resized.value, path, p, tools);
  }

  /**
   * A file in a directory whose name contains ".png": the resize output goes
   * to a rewritten directory. When no file can be created there, `img.save`
   * raises, the job ends after the resize, zopflipng is never invoked, and
   * the file is left as it was.
   */
  lemma RenamedDirectoryEndsJob(fs: Fs, dir: string, stem: string, p: Params, tools: Tools)
    requires !Contains(dir, PngExt) && !Contains(stem, PngExt)
    requires Truthy(p.size)
    requires var path := dir + PngExt + "/" + stem + PngExt;
      path in fs && fs[path].Png?
      && NewDim(fs[path].width, p.size.value) >= 1 && NewDim(fs[path].height, p.size.value) >= 1
    requires !tools.canCreate(dir + ResizedSuffix + "/" + stem + ResizedSuffix)
    ensures var r := ProcessImage(fs, dir + PngExt + "/" + stem + PngExt, p, tools);
      && r.crash == Some(ResizeFailed(SaveFailed))
      && r.invoked == [ResizeStep]
      && r.fs == fs
  {
    var path := dir + PngExt + "/" + stem + PngExt;
    DirectoryExtIsRewritten(dir, stem, ResizedSuffix);
    assert ResizeStage(fs, path, p.size.value, tools.resample, tools.canCreate) == Err(SaveFailed);
    assert Plan(p)[0] == ResizeStep;
  }

  /**
   * A file in a directory whose name contains ".png", without `--size`: the
   * compressors write into rewritten directories. When no file can be
   * created there and no leftover files sit at their side paths, both
   * report failure and the file is left as it was, though the job completes.
   */
  lemma RenamedDirectoryKeepsFile(fs: Fs, dir: string, stem: string, p: Params, tools: Tools)
    requires !Contains(dir, PngExt) && !Contains(stem, PngExt)
    requires !Truthy(p.size) && tools.pngquantStarts && tools.zopflipngStarts
    requires !tools.canCreate(dir + PngquantSuffix + "/" + stem + PngquantSuffix)
    requires !tools.canCreate(dir + ZopfliSuffix + "/" + stem + ZopfliSuffix)
    requires dir + PngquantSuffix + "/" + stem + PngquantSuffix !in fs
    requires dir + ZopfliSuffix + "/" + stem + ZopfliSuffix !in fs
    ensures var r := ProcessImage(fs, dir + PngExt + "/" + stem + PngExt, p, tools);
      r.crash.None? && r.fs == fs
  {
    var path := dir + PngExt + "/" + stem + PngExt;
    DirectoryExtIsRewritten(dir, stem, PngquantSuffix);
    DirectoryExtIsRewritten(dir, stem, ZopfliSuffix);
    assert !Optimize(fs, path, p.iterations, tools).replaced;
    if Truthy(p.quality) {
      assert !Quantize(fs, path, p.quality.value, tools).replaced;
      assert Plan(p) == [QuantizeStep] + [OptimizeStep];
      RunTraceCons(fs, path, QuantizeStep, [OptimizeStep], p, tools);
    } else {
      assert Plan(p) == [OptimizeStep];
    }
    RunTraceOne(fs, path, OptimizeStep, p, tools);
  }
}

=== FILE: scenarios.dfy ===
/**
 * Concrete scenarios: small inputs worked through the model end to end.
 */
module Scenarios {
  import opened Discovery

  /** Of three PNG names in mixed case and one JPEG name, the three pass in order. */
  lemma FilterThreeOfFour()
    ensures FilterPng(["a.png", "B.PNG", "c.Png", "d.jpg"]) == ["a.png", "B.PNG", "c.Png"]
  {
    PngNameByLastFour("a.png");
    PngNameByLastFour("B.PNG");
    PngNameByLastFour("c.Png");
    PngNameByLastFour("d.jpg");
    FilterThreeAndOne("a.png", "B.PNG", "c.Png", "d.jpg");
  }

  /** Unrolls the filter by one name. */
  lemma FilterPngCons(x: string, rest: seq<string>)
    ensures FilterPng([x] + rest) == (if IsPngName(x) then [x] else []) + FilterPng(rest)
  {
  }

  /** Three names that pass and one that does not: the three are kept, in order. */
  lemma FilterThreeAndOne(a: string, b: string, c: string, other: string)
    requires IsPngName(a) && IsPngName(b) && IsPngName(c) && !IsPngName(other)
    ensures FilterPng([a, b, c, other]) == [a, b, c]
  {
    assert FilterPng([other]) == [] by {
      FilterPngCons(other, []);
    }
    assert FilterPng([c, other]) == [c] by {
      FilterPngCons(c, [other]);
    }
    assert FilterPng([b, c, other]) == [b, c] by {
      FilterPngCons(b, [c, other]);
    }
    FilterPngCons(a, [b, c, other]);
  }

  /**
   * A directory listing three PNG names and one other name yields exactly
   * three paths, in listing order, none of them for the other name.
   */
  lemma ThreePngsOneOther(dir: string, a: string, b: string, c: string, other: string,
                          walk: seq<WalkEntry>)
    requires IsPngName(a) && IsPngName(b) && IsPngName(c) && !IsPngName(other)
    ensures GetPngFiles(dir, Directory, false, [a, b, c, other], walk)
         == [Join(dir, a), Join(dir, b), Join(dir, c)]
  {
    FilterThreeAndOne(a, b, c, other);
    assert GetPngFiles(dir, Directory, false, [a, b, c, other], walk) == JoinAll(dir, [a, b, c]);
    var r := JoinAll(dir, [a, b, c]);
    assert |r| == 3 && r[0] == Join(dir, a) && r[1] == Join(dir, b) && r[2] == Join(dir, c);
  }
}

=== FILE: stages.dfy ===
/**
 * The per-file stages of teenypng.py over an abstract filesystem: the side
 * path each stage writes to, `os.replace`, the replace-on-success rule of the
 * two compressors, and the resize stage with its dimension arithmetic.
 */
module Stages {
  import opened Wrappers
  import opened Text

  /** A pixel dimension of a decoded image (PNG images are at least 1x1). */
  type Dim = x: int | x >= 1 witness 1

  /** What a file holds: a decodable PNG image, or bytes the image library rejects. */
  datatype Content = Png(width: Dim, height: Dim, pixels: seq<bv8>) | Unreadable(bytes: seq<bv8>)

  /** The files on disk, by path. Directories are not keys. */
  type Fs = map<string, Content>

  const PngExt: string := ".png"
  const ResizedSuffix: string := "_resized.png"
  const PngquantSuffix: string := "_pngquant.png"
  const ZopfliSuffix: string := "_optimized.png"

  /** One of the three suffixes the stages substitute for ".png". */
  predicate IsStageSuffix(suffix: string)
  {
    suffix == ResizedSuffix || suffix == PngquantSuffix || suffix == ZopfliSuffix
  }

  /**
   * The temporary output path of a stage: `input.replace(".png", suffix)`.
   * Every occurrence is rewritten, and only the lower-case spelling matches.
   */
  function SidePath(input: string, suffix: string): (r: string)
    ensures IsStageSuffix(suffix) ==> |input| <= |r|
  {
    ReplaceAll(input, PngExt, suffix)
  }

  /**
   * A stage's side path differs from its input exactly when the input
   * contains the lower-case ".png" somewhere.
   */
  lemma SidePathDiffersIff(input: string, suffix: string)
    requires IsStageSuffix(suffix)
    ensures SidePath(input, suffix) != input <==> Contains(input, PngExt)
  {
    ReplaceChangesIff(input, PngExt, suffix);
  }

  /** ".png" cannot start inside `x + ".png"` unless it already occurs in `x`. */
  lemma FrontIsNotExt(x: string, y: string)
    requires !Contains(x, PngExt) && |x| > 0
    ensures (x + PngExt + y)[..4] != PngExt
  {
    var s := x + PngExt + y;
    if |x| >= 4 {
      assert s[0..0 + 4] == x[0..0 + 4];
      assert !OccursAt(x, PngExt, 0);
    } else {
      assert s[|x|] == '.';
      assert PngExt[|x|] != '.';
    }
  }

  /**
   * `replace` rewrites the first occurrence and carries on after it: the
   * text before the first ".png" is kept, the occurrence becomes the suffix.
   */
  lemma {:induction false} SidePathSplitsAtFirstExt(x: string, y: string, suffix: string)
    requires !Contains(x, PngExt)
    ensures SidePath(x + PngExt + y, suffix) == x + suffix + SidePath(y, suffix)
    decreases |x|
  {
    var s := x + PngExt + y;
    if |x| == 0 {
      assert s == PngExt + y;
      assert s[..4] == PngExt;
      assert s[4..] == y;
      assert OccursAt(s, PngExt, 0);
    } else {
      FrontIsNotExt(x, y);
      ContainsCons(x[0], x[1..], PngExt);
      assert [x[0]] + x[1..] == x;
      assert s[1..] == x[1..] + PngExt + y;
      SidePathSplitsAtFirstExt(x[1..], y, suffix);
      assert [x[0]] + (x[1..] + suffix + SidePath(y, suffix)) == x + suffix + SidePath(y, suffix);
    }
  }

  /** A name whose only ".png" is its extension gets the suffix in its place. */
  lemma PlainNameSidePath(stem: string, suffix: string)
    requires !Contains(stem, PngExt)
    ensures SidePath(stem + PngExt, suffix) == stem + suffix
  {
    SidePathSplitsAtFirstExt(stem, "", suffix);
    assert stem + PngExt + "" == stem + PngExt;
  }

  /**
   * A ".png" inside a directory name is rewritten too, so the side path lies
   * in a different directory (`shots.png/a.png` becomes
   * `shots_pngquant.png/a_pngquant.png`).
   */
  lemma DirectoryExtIsRewritten(dir: string, stem: string, suffix: string)
    requires !Contains(dir, PngExt) && !Contains(stem, PngExt)
    ensures SidePath(dir + PngExt + "/" + stem + PngExt, suffix) == dir + suffix + "/" + stem + suffix
  {
    var y := "/" + stem + PngExt;
    assert dir + PngExt + "/" + stem + PngExt == dir + PngExt + y;
    SidePathSplitsAtFirstExt(dir, y, suffix);
    assert !Contains("/" + stem, PngExt) by {
      ContainsCons('/', stem, PngExt);
      if |stem| + 1 >= 4 {
        assert ("/" + stem)[..4][0] == '/';
      }
    }
    PlainNameSidePath("/" + stem, suffix);
    assert "/" + stem + PngExt == y;
  }

  /**
   * Discovery accepts an upper-case ".PNG" name, but `replace` does not
   * match it: the side path is the input path itself.
   */
  lemma UpperCaseExtKeepsPath(stem: string, suffix: string)
    requires !Contains(stem, PngExt)
    ensures !Contains(stem + ".PNG", PngExt)
    ensures SidePath(stem + ".PNG", suffix) == stem + ".PNG"
  {
    var s := stem + ".PNG";
    forall i | 0 <= i <= |s| ensures !OccursAt(s, PngExt, i) {
      if i + 4 <= |s| {
        if i + 4 <= |stem| {
          assert s[i..i + 4] == stem[i..i + 4];
          assert !OccursAt(stem, PngExt, i);
        } else {
          assert s[i + 3] == ".PNG"[i + 3 - |stem|];
          assert s[i..i + 4][3] != PngExt[3];
        }
      }
    }
    ReplaceAbsent(s, PngExt, suffix);
  }

  /** Every key outside `keys` is present in `a` iff in `b`, with the same content. */
  ghost predicate SameExcept(a: Fs, b: Fs, keys: set<string>)
  {
    forall k :: k !in keys ==> (k in a <==> k in b) && (k in a && k in b ==> a[k] == b[k])
  }

  /**
   * `os.replace(src, dst)`: `dst` takes the content of `src` and `src`
   * disappears; replacing a path by itself changes nothing.
   */
  function Replace(fs: Fs, src: string, dst: string): (r: Fs)
    requires src in fs
    ensures dst in r && r[dst] == fs[src]
    ensures src != dst ==> src !in r
    ensures SameExcept(fs, r, {src, dst})
  {
    if src == dst then fs else fs[dst := fs[src]] - {src}
  }

  /** The filesystem after a tool wrote `out` at `side` (or wrote nothing). */
  function WriteSide(fs: Fs, side: string, out: Option<Content>): (r: Fs)
    ensures out.Some? ==> side in r && r[side] == out.value
    ensures out.None? ==> r == fs
    ensures SameExcept(fs, r, {side})
  {
    if out.Some? then fs[side := out.value] else fs
  }

  /** A compressor stage's effect and whether it reported success. */
  datatype StageResult = StageResult(fs: Fs, replaced: bool)

  /**
   * The body of `compress_with_pngquant` / `compress_with_zopfli` after the
   * tool has run: `out` is what the tool wrote at the side path. If a file
   * exists at the side path, it replaces the input; otherwise nothing
   * changes and the stage reports failure.
   */
  function CompressStage(fs: Fs, input: string, suffix: string, out: Option<Content>): (r: StageResult)
    ensures var side := SidePath(input, suffix);
      && (r.replaced <==> out.Some? || side in fs)
      && (!r.replaced ==> r.fs == fs)
      && (r.replaced ==> input in r.fs && r.fs[input] == (if out.Some? then out.value else fs[side]))
      && (r.replaced && side != input ==> side !in r.fs)
      && SameExcept(fs, r.fs, {input, side})
  {
    var side := SidePath(input, suffix);
    var after := WriteSide(fs, side, out);
    if side in after then StageResult(Replace(after, side, input), true)
    else StageResult(fs, false)
  }

  /**
   * When the side path is the input itself (an upper-case ".PNG" name), a
   * tool that wrote nothing is still reported as a success.
   */
  lemma FailedToolOnOwnSidePathReadsAsSuccess(fs: Fs, input: string, suffix: string)
    requires SidePath(input, suffix) == input && input in fs
    ensures CompressStage(fs, input, suffix, None) == StageResult(fs, true)
  {
  }

  /**
   * A file left at the side path by an earlier run is taken as the tool's
   * output even when the tool wrote nothing this time.
   */
  lemma StaleSideFileIsPromoted(fs: Fs, input: string, suffix: string)
    requires SidePath(input, suffix) != input && SidePath(input, suffix) in fs
    ensures var r := CompressStage(fs, input, suffix, None);
      r.replaced && r.fs[input] == fs[SidePath(input, suffix)]
  {
  }

  /** `int(d * pct / 100)`: the scaled dimension, truncated toward zero. */
  function NewDim(d: nat, pct: int): (r: int)
    ensures pct >= 0 ==> 0 <= r && r * 100 <= d * pct < r * 100 + 100
    ensures pct < 0 ==> r <= 0 && -r * 100 <= d * -pct < -r * 100 + 100
  {
    if pct >= 0 then d * pct / 100 else -(d * -pct / 100)
  }

  /** Scaling by at most 100 percent never enlarges a dimension. */
  lemma NewDimAtMostOriginal(d: nat, pct: int)
    requires 0 <= pct <= 100
    ensures 0 <= NewDim(d, pct) <= d
  {
  }

  /** 100 percent keeps the dimension; 50 percent halves it, rounding down. */
  lemma NewDimFullAndHalf(d: nat)
    ensures NewDim(d, 100) == d
    ensures NewDim(d, 50) == d / 2
  {
  }

  /** A larger percentage never gives a smaller dimension. */
  lemma NewDimMonotone(d: nat, p: int, q: int)
    requires 0 <= p <= q
    ensures NewDim(d, p) <= NewDim(d, q)
  {
  }

  /** Why `resize_image` raised. */
  datatype ResizeError =
    | FileNotFound    // `Image.open` on a path with no file
    | CannotIdentify  // the image library cannot decode the file
    | EmptySize       // the image library refuses a width or height below 1
    | SaveFailed      // `img.save` cannot create the side path, e.g. its directory does not exist

  /**
   * `resize_image(input, side, pct)` followed by `os.replace(side, input)`:
   * the image is decoded, scaled to `NewDim` in each direction (the pixels
   * come from `resample`), saved at the side path and moved over the input.
   * `canCreate` tells whether a file can be written at a path: directories
   * are not part of `Fs`, and a side path whose ".png" was rewritten inside
   * a directory name may lie in a directory that does not exist.
   */
  function ResizeStage(fs: Fs, input: string, pct: int, resample: (Content, Dim, Dim) -> seq<bv8>,
                       canCreate: string -> bool)
    : (r: Result<Fs, ResizeError>)
    ensures input !in fs <==> r == Err(FileNotFound)
    ensures input in fs && fs[input].Unreadable? <==> r == Err(CannotIdentify)
    ensures input in fs && fs[input].Png? ==>
      (r == Err(EmptySize) <==> NewDim(fs[input].width, pct) < 1 || NewDim(fs[input].height, pct) < 1)
    ensures r == Err(SaveFailed) <==>
      && input in fs && fs[input].Png?
      && NewDim(fs[input].width, pct) >= 1 && NewDim(fs[input].height, pct) >= 1
      && !canCreate(SidePath(input, ResizedSuffix))
    ensures r.Ok? ==>
      && input in fs && fs[input].Png?
      && input in r.value && r.value[input].Png?
      && r.value[input].width == NewDim(fs[input].width, pct)
      && r.value[input].height == NewDim(fs[input].height, pct)
      && SameExcept(fs, r.value, {input, SidePath(input, ResizedSuffix)})
      && (SidePath(input, ResizedSuffix) != input ==> SidePath(input, ResizedSuffix) !in r.value)
  {
    if input !in fs then Err(FileNotFound)
    else match fs[input]
      case Unreadable(_) => Err(CannotIdentify)
      case Png(w, h, _) =>
        var nw := NewDim(w, pct);
        var nh := NewDim(h, pct);
        var side := SidePath(input, ResizedSuffix);
        if nw < 1 || nh < 1 then Err(EmptySize)
        else if !canCreate(side) then Err(SaveFailed)
        else
          var saved := fs[side := Png(nw, nh, resample(fs[input], nw, nh))];
          Ok(Replace(saved, side, input))
  }
}

=== FILE: text.dfy ===
/**
 * The string operations the script relies on, with Python's semantics:
 * `str.lower`, `str.endswith`, the `in` substring search and `str.replace`.
 * Strings are `seq<char>`; lowering is modelled on ASCII letters only.
 */
module Text {

  /** Lower-cases an ASCII upper-case letter; every other character is kept. */
  function Lower(c: char): (r: char)
    ensures 'A' <= c <= 'Z' ==> r as int == c as int + 32
    ensures !('A' <= c <= 'Z') ==> r == c
  {
    if 'A' <= c <= 'Z' then (c as int - 'A' as int + 'a' as int) as char else c
  }

  /** `s.lower()`: lowers each character in place. */
  function LowerStr(s: string): (r: string)
    ensures |r| == |s|
    ensures forall i :: 0 <= i < |s| ==> r[i] == Lower(s[i])
  {
    seq(|s|, i requires 0 <= i < |s| => Lower(s[i]))
  }

  /** `s.endswith(t)`. */
  predicate EndsWith(s: string, t: string)
  {
    |t| <= |s| && s[|s| - |t|..] == t
  }

  /** `t` occurs in `s` starting at index `i`. */
  predicate OccursAt(s: string, t: string, i: int)
  {
    0 <= i && i + |t| <= |s| && s[i..i + |t|] == t
  }

  /** `t in s`: `t` occurs in `s` at some position. */
  predicate Contains(s: string, t: string)
  {
    exists i | 0 <= i <= |s| :: OccursAt(s, t, i)
  }

  /**
   * `s.replace(pat, rep)`: every occurrence of `pat`, found left to right
   * without overlap, is replaced by `rep`. Matching is exact, so it is
   * case-sensitive.
   */
  function ReplaceAll(s: string, pat: string, rep: string): (r: string)
    requires |pat| > 0
    ensures |rep| == |pat| ==> |r| == |s|
    ensures |pat| <= |rep| ==> |s| <= |r|
    decreases |s|
  {
    if |s| < |pat| then s
    else if s[..|pat|] == pat then rep + ReplaceAll(s[|pat|..], pat, rep)
    else [s[0]] + ReplaceAll(s[1..], pat, rep)
  }

  /** An occurrence of `t` in `c + s` is either at the front or inside `s`. */
  lemma ContainsCons(c: char, s: string, t: string)
    requires |t| > 0
    ensures Contains([c] + s, t) <==> ((|t| <= |s| + 1 && ([c] + s)[..|t|] == t) || Contains(s, t))
  {
    var cs := [c] + s;
    assert cs[1..] == s;
    if Contains(cs, t) && !(|t| <= |s| + 1 && cs[..|t|] == t) {
      var i :| 0 <= i <= |cs| && OccursAt(cs, t, i);
      assert i + |t| <= |cs| && cs[i..i + |t|] == t;
      assert i != 0;
      assert s[i - 1..i - 1 + |t|] == cs[1..][i - 1..i - 1 + |t|] == cs[i..i + |t|];
      assert OccursAt(s, t, i - 1);
    }
    if Contains(s, t) {
      var i :| 0 <= i <= |s| && OccursAt(s, t, i);
      assert i + |t| <= |s| && s[i..i + |t|] == t;
      assert cs[i + 1..i + 1 + |t|] == cs[1..][i..i + |t|] == s[i..i + |t|];
      assert OccursAt(cs, t, i + 1);
    }
    if |t| <= |s| + 1 && cs[..|t|] == t {
      assert OccursAt(cs, t, 0);
    }
  }

  /** Without an occurrence of `pat`, `replace` returns its input unchanged. */
  lemma {:induction false} ReplaceAbsent(s: string, pat: string, rep: string)
    requires |pat| > 0
    requires !Contains(s, pat)
    ensures ReplaceAll(s, pat, rep) == s
    decreases |s|
  {
    if |s| < |pat| {
    } else {
      assert !OccursAt(s, pat, 0);
      ContainsCons(s[0], s[1..], pat);
      assert [s[0]] + s[1..] == s;
      ReplaceAbsent(s[1..], pat, rep);
    }
  }

  /**
   * With a replacement longer than the pattern, `replace` never shortens its
   * input and strictly lengthens it as soon as the pattern occurs.
   */
  lemma {:induction false} ReplaceGrows(s: string, pat: string, rep: string)
    requires 0 < |pat| < |rep|
    ensures |ReplaceAll(s, pat, rep)| >= |s|
    ensures Contains(s, pat) ==> |ReplaceAll(s, pat, rep)| > |s|
    decreases |s|
  {
    if |s| < |pat| {
    } else if s[..|pat|] == pat {
      ReplaceGrows(s[|pat|..], pat, rep);
    } else {
      ContainsCons(s[0], s[1..], pat);
      assert [s[0]] + s[1..] == s;
      ReplaceGrows(s[1..], pat, rep);
    }
  }

  /**
   * `replace` with a longer replacement changes its input exactly when the
   * pattern occurs in it.
   */
  lemma ReplaceChangesIff(s: string, pat: string, rep: string)
    requires 0 < |pat| < |rep|
    ensures ReplaceAll(s, pat, rep) != s <==> Contains(s, pat)
  {
    ReplaceGrows(s, pat, rep);
    if !Contains(s, pat) {
      ReplaceAbsent(s, pat, rep);
    }
  }
}

=== FILE: wrappers.dfy ===
/** Failure-carrying result types shared by the model. */
module Wrappers {

  /** A value that may be absent (Python's `None`). */
  datatype Option<+T> = None | Some(value: T)

  /** Either a value or the error a Python call would have raised. */
  datatype Result<+T, +E> = Ok(value: T) | Err(error: E)
}
